=== FILE: README.md ===
# Memory Maze: a Dafny model of the per-frame game update

Memory Maze ("Shadow Pursuit") is a small grid-maze arcade game. The player
walks from the start cell (0, 0) to the exit cell (ROWS-1, COLS-1) of a randomly
walled 15 x 17 grid. A shadow replays the player's own trail of positions,
nine entries behind the newest one. Every move adds darkness, and light orbs
take darkness away. Once more than 30 seconds have passed since the last
mutation, the maze mutates: up to five randomly picked cells toggle between
wall and floor, the start and exit cells are skipped, and a cell picked twice
toggles back.

This project models the game's state update in Dafny, taken out of the
graphics library:

- `grid.dfy` (module `Grid`): the tile geometry (ROWS = 600 / 40 = 15,
  COLS = 700 / 40 = 17), cells, and the maze as the game stores it: a
  `seq<seq<int>>` of 0 (floor) and 1 (wall).
- `mazegen.dfy` (module `MazeGen`): `generate_maze` (85 random wall picks,
  then the start and exit cleared) and `dynamic_maze` (five picks, each
  toggling its cell unless it is the start or the exit). A reference semantics
  (a cell ends up flipped exactly when it was picked an odd number of times)
  is proved and used to derive order independence and "picking twice
  restores".
- `orbs.dfy` (module `Orbs`): `spawn_light_orbs` (five attempts, only walkable
  ones kept, duplicates allowed), the orb-collection loop, and the darkness
  overlay's opacity. The loop walks over a copy of the list while it calls
  `list.remove` on the live list. It is modelled that way and proved equal to
  a plain filter. Its darkness effect is proved equal to a single
  `max(0, d - 50 * k)`.
- `movement.dfy` (module `Movement`): the four direction checks in the order
  up, down, left, right. Each check is made against the position left by the
  earlier ones.
- `shadow.dfy` (module `Shadow`): the shadow as `shadow_path[-10]`, present
  only when the trail is longer than 10, and the capture test.
- `game.dfy` (module `Game`): the global variables gathered into one
  `GameState` record. `Step` runs one frame as four phases in source order:
  `ApplyMove`, `Collect`, `MaybeMutate`, `Conclude`. `Run` chains frames.
  The file proves an invariant that every reachable state keeps, that capture
  and escape exclude each other, and that the game is frozen once it stops.
  Over a whole game, the trail is proved equal to the positions where the
  player ended each frame with a move, so the shadow is that record read nine
  moving frames back.

Inputs from outside the game become parameters:
- the random cell picks are a sequence of in-bounds cells, consumed in the
  order `random.randint` would be called;
- the pressed keys are a `Keys` record;
- the quit event is a boolean;
- the wall clock is an integer count of milliseconds.

## Model

| member | source | states |
|---|---|---|
| MazeGen.GridConstants | MAZ/memory_maze.py:26-28 | the grid is 15 rows by 17 columns, 85 wall picks are made, and start and exit are distinct on-board cells |
| MazeGen.PlaceWalls | MAZ/memory_maze.py:50-51 | after the placement loop a cell is a wall exactly when it was picked or already was a wall; the grid keeps its shape |
| MazeGen.GenerateMaze | MAZ/memory_maze.py:48-54 | the result is a 15 x 17 grid of 0/1 values; start and exit are floor; a cell is a wall iff it was picked and is neither start nor exit; there are at most (ROWS*COLS)//3 walls |
| MazeGen.WallCountBound | MAZ/memory_maze.py:50-51 | a maze whose walls all come from the picks has no more walls than there are picks |
| MazeGen.MutateOne | MAZ/memory_maze.py:83-85 | one pick flips its cell 0 to 1 or 1 to 0 unless it is the start or exit; every other cell keeps its value |
| MazeGen.Mutate | MAZ/memory_maze.py:82-85 | a run of picks keeps the grid shape, leaves start and exit as they were, and leaves every unpicked cell unchanged |
| MazeGen.DynamicMaze | MAZ/memory_maze.py:81-85 | the five-pick mutation keeps the grid shape, never changes start or exit, and changes only picked cells |
| MazeGen.MutateParity | MAZ/memory_maze.py:81-85 | a cell other than start and exit ends flipped exactly when it was picked an odd number of times, and is unchanged otherwise |
| MazeGen.MutateOrderIrrelevant | MAZ/memory_maze.py:81-85 | two pick sequences with the same multiset of cells give the same maze |
| MazeGen.MutateEvenRestores | MAZ/memory_maze.py:81-85 | picks that name every cell an even number of times give back the original maze |
| MazeGen.MutateAppend | MAZ/memory_maze.py:82-85 | mutating with one batch and then another is mutating with their concatenation |
| MazeGen.MutateTwiceRestores | MAZ/memory_maze.py:84-85 | picking the same cell twice restores the maze |
| MazeGen.DynamicMazePairsRestore | MAZ/memory_maze.py:81-85 | a five-pick mutation made of two repeated cells and a start or exit pick leaves the maze unchanged |
| MazeGen.EndsWalkableAfterMutations | MAZ/memory_maze.py:172-175 | after any number of mutations start and exit are still walkable and the grid keeps its shape |
| Orbs.KeepWalkable | MAZ/memory_maze.py:60-63 | no more orbs than attempts, and every kept attempt is an on-board walkable cell |
| Orbs.KeepWalkableCounts | MAZ/memory_maze.py:60-63 | each walkable cell is kept exactly as often as it was picked, and a wall cell never |
| Orbs.KeepWalkableInOrder | MAZ/memory_maze.py:60-63 | the kept attempts appear in the order they were drawn |
| Orbs.SpawnOrbs | MAZ/memory_maze.py:59-65 | at most 5 orbs; every orb is on the board and walkable in the maze at spawn time; the count of each cell matches its walkable picks |
| Orbs.SpawnMayDuplicate | MAZ/memory_maze.py:59-63 | five attempts on one walkable cell give five orbs on the same cell |
| Orbs.SpawnMayComeUpShort | MAZ/memory_maze.py:59-63 | five attempts that all land on wall cells give no orbs at all |
| Orbs.Without | MAZ/memory_maze.py:167-169 | reference for collection: the result drops every entry equal to the player cell, keeps all others with their multiplicity and order, and is the input when nothing matches |
| Orbs.RemoveFirst | MAZ/memory_maze.py:169 | `list.remove` of a present value shortens the list by one and removes one copy of that value |
| Orbs.RemoveFirstAfterPrefix | MAZ/memory_maze.py:167-169 | when the value is absent from a prefix, `remove` deletes the head of the rest, as the loop over the copied list relies on |
| Orbs.HitStep | MAZ/memory_maze.py:167-170 | when the loop visits an orb on the player's cell, that orb is in the live list and `remove` takes out exactly that entry: the visited part is unchanged and the rest of the snapshot still follows it |
| Orbs.MissStep | MAZ/memory_maze.py:167-168 | when the loop visits an orb elsewhere, the orb stays in the live list and joins the visited part, which still holds no entry on the player's cell |
| Orbs.DropHit | MAZ/memory_maze.py:168-170 | an orb on the player's cell at the head of the unvisited part is filtered out and counts once towards the light |
| Orbs.DropMiss | MAZ/memory_maze.py:168 | an orb elsewhere at the head of the unvisited part survives the filter, ahead of the rest |
| Orbs.CollectLoop | MAZ/memory_maze.py:167-170 | from any loop state (unvisited snapshot part at the tail of the live list, nothing visited on the player cell) the loop leaves the visited part followed by the unvisited part filtered of the player cell, and the darkness at max(0, d - 50 * number of matches) |
| Orbs.DecayStep | MAZ/memory_maze.py:170 | applying the floored 50-step decrease once more is the same as one floored decrease by 50 times the count |
| Orbs.WithoutInBounds | MAZ/memory_maze.py:166-170 | collection keeps only orbs that were already on the board |
| Orbs.CollectOrbs | MAZ/memory_maze.py:166-170 | collection never grows the list; no orb on the player cell remains; the rest keep their order; each removed entry lowers darkness by 50, floored at 0; nothing changes when no orb is on the player |
| Orbs.Alpha | MAZ/memory_maze.py:114 | the overlay opacity lies in [0, 200], never exceeds the darkness, equals it up to 200 and is 200 beyond |
| Movement.CanStepMeans | MAZ/memory_maze.py:146-157 | each direction's guard (boundary test and then maze value) holds iff the orthogonal neighbour is on the board and is floor |
| Movement.TryStep | MAZ/memory_maze.py:146-157 | one direction applies iff its key is held and the neighbour is an on-board floor cell; if it applies the player lands on that neighbour, otherwise stays |
| Movement.Move | MAZ/memory_maze.py:143-157 | the player stays on the board; if any direction applied the final cell is floor; with no move the position is unchanged; rows and columns change by at most one; no keys or four blocked neighbours mean no move |
| Movement.SingleKeyMove | MAZ/memory_maze.py:146-157 | with one key held the frame moves exactly when that neighbour is an on-board floor cell, and then onto it |
| Movement.MoveThenReverse | MAZ/memory_maze.py:146-157 | a single-key move from a floor cell is undone by the opposite key |
| Movement.UpDownCountsAsMove | MAZ/memory_maze.py:146-151 | holding up and down on open floor moves up and back in one frame: the frame counts as a move with the player where it started |
| Movement.LeftRightCountsAsMove | MAZ/memory_maze.py:152-157 | holding left and right on a floor cell with a floor left neighbour moves left and then back in one frame, because left is checked before right: the frame counts as a move with the player where it started |
| Movement.DiagonalInOneFrame | MAZ/memory_maze.py:149-157 | holding down and right on open floor moves diagonally in one frame |
| Shadow.ShadowPos | MAZ/memory_maze.py:108-109 | the shadow exists iff the trail holds more than 10 entries, and is then the entry at index len - 10 |
| Shadow.ShadowLag | MAZ/memory_maze.py:178 | the shadow sits nine entries before the newest trail entry |
| Shadow.ShadowAdvances | MAZ/memory_maze.py:163 | each recorded move advances the shadow by exactly one trail entry |
| Shadow.ShadowFirstAppears | MAZ/memory_maze.py:178 | with exactly 10 entries there is no shadow; the 11th move makes it appear on the second entry |
| Shadow.Captured | MAZ/memory_maze.py:178 | capture holds iff the trail is longer than 10 and its entry at len - 10 is the player's cell; with 10 or fewer entries there is never a capture |
| Game.Initial | MAZ/memory_maze.py:35-65 | the start state satisfies the invariant: player on (0, 0), empty trail, score and darkness 0, at most 5 walkable orbs, running |
| Game.ApplyMove | MAZ/memory_maze.py:143-164 | when any direction applied: score +1, exactly one trail entry equal to the new cell, darkness +5, once per frame however many directions applied; otherwise position, score, trail and darkness unchanged |
| Game.Collect | MAZ/memory_maze.py:166-170 | the orbs on the player cell are removed, and the darkness drops by 50 per removed entry, floored at 0; nothing else changes |
| Game.MaybeMutate | MAZ/memory_maze.py:172-175 | no change unless more than 30 s passed since the last mutation; then only picked cells change and the timer restarts at `now`; start and exit never change |
| Game.MaybeMutateToggles | MAZ/memory_maze.py:172-175 | when more than 30 s have passed, each cell other than start and exit flips exactly when it was picked an odd number of times, and keeps its value otherwise |
| Game.Conclude | MAZ/memory_maze.py:177-191 | capture is checked first and ends the game as caught; otherwise standing on the exit ends it as escaped; otherwise a quit event stops it |
| Game.Step | MAZ/memory_maze.py:137-191 | a stopped game does not change; the orb list never grows; no orb stays on the player's cell; start and exit keep their values; the score rises by at most one; a frame that scores appends exactly the player's final cell to the trail, and any other frame leaves the trail alone |
| Game.StepScoresOnMove | MAZ/memory_maze.py:144-163 | a running frame scores exactly one point when some direction applied and none otherwise; a frame with a move appends the player's final cell to the trail, and a frame without one leaves the trail as it was |
| Game.StepDarkness | MAZ/memory_maze.py:161-170 | over a running frame the darkness rises by 5 if a move was made, then drops by 50 for each orb on the cell the player ends on, floored at 0 |
| Game.StepPreservesInv | MAZ/memory_maze.py:143-191 | every frame keeps the invariant: maze shape, start and exit walkable, player and trail on the board, score equal to trail length, player on the newest trail entry, and a running game never ended a frame on the exit |
| Game.CaptureExcludesEscape | MAZ/memory_maze.py:177-191 | from a reachable running state a frame never both captures and escapes, so checking capture first never hides an escape |
| Game.Run | MAZ/memory_maze.py:137-193 | the loop applies one Step per frame in frame order, and every state it reaches has a well-formed maze and the player on the board |
| Game.RunPreservesInv | MAZ/memory_maze.py:137-193 | over any number of frames the invariant holds, the orb list never grows, the score never falls, and the old trail stays a prefix of the new one |
| Game.RunAfterEnd | MAZ/memory_maze.py:137 | once the game has stopped no frame changes score, position, orbs or darkness |
| Game.MovedPositions | MAZ/memory_maze.py:161-163 | the record of scoring frames has at most one entry per frame |
| Game.RunTrail | MAZ/memory_maze.py:137-191 | over any run the trail is the old trail followed by the player's final cell of each frame that scored, in frame order, and nothing else |
| Game.TrailFromStart | MAZ/memory_maze.py:161-163 | over a whole game from the empty trail, the trail is exactly the record of moving frames |
| Game.ShadowBehindPlayer | MAZ/memory_maze.py:108-109 | in every reachable state the newest trail entry is the player's cell; the shadow exists iff the trail is longer than 10, and then stands on the entry nine before the player's |
| Game.OrbFloorsDarkness | MAZ/memory_maze.py:161-170 | moving onto a single orb with darkness 40 leaves darkness 0 and one orb fewer |
| Game.StepRight | MAZ/memory_maze.py:146-164 | a right move onto an open, orb-free non-exit cell early in the game changes only position, score, trail and darkness |
| Game.StepRightKeepsRunning | MAZ/memory_maze.py:155-191 | such a right move keeps the invariant and the game running, moves the player one column right, adds one point and 5 darkness, and leaves maze, orbs and timer unchanged |
| Game.ThreeMovesRight | MAZ/memory_maze.py:155-164 | three consecutive frames pressing right from the start along open floor end on (0, 3) with score 3 and darkness 15, still running |

## Behaviour of the code worth noting

The model keeps each of these as the code does it.

- `darkness_level` has no upper bound in the state. Line 164 adds 5 for every
  frame with a move, and only line 114 caps the value, at 200, when the
  overlay opacity is computed (`Orbs.Alpha`).
- The shadow is `shadow_path[-shadow_delay]` with `shadow_delay = 10`, read
  only when `len(shadow_path) > 10` (lines 108-109 and 178). Index -10 is nine
  entries behind the newest one, which is the player's own cell. So the shadow
  stands where the player was nine moves before the latest move
  (`Shadow.ShadowLag`, `Game.ShadowBehindPlayer`). The first trail entry is
  never a shadow cell (`Shadow.ShadowFirstAppears`).
- `light_orbs` is a list. Lines 59-63 append one tuple per walkable attempt, so
  one spawn can put several orbs on the same cell (`Orbs.SpawnMayDuplicate`).
  Lines 167-170 loop over a copy and remove each matching copy in turn, so
  collecting that cell removes all of them and lowers darkness by 50 for each.
- Line 141 sets `running` to false on a quit event, but lines 143-191 still
  run in that frame: the move, collection, mutation and capture and exit
  checks all happen. The model records this as the `Quit` status at the end of
  the frame, unless capture or escape came first.
- Lines 146-151 test up and then down against the position the up test left.
  When both apply, the player ends where it started but `move_made` is true:
  score +1, a trail entry and +5 darkness (`Movement.UpDownCountsAsMove`).

## Left out

- Rendering (`draw_game`, the drawing half of `flashback`, fonts, text and
  `display.update`). It only draws and changes no game state. The one value
  it computes from the state, the overlay opacity, is modelled as `Orbs.Alpha`.
- `flashback`: it draws and blocks for one second. The flashback key is
  recorded in `Keys` but has no effect on the state.
- Event polling other than the quit flag; `clock.tick(15)` and the
  `pygame.time.delay` pauses. These are timing and I/O only.
- `random.randint`: replaced by explicit in-bounds picks. The random
  distribution is not modelled.
- `time.time()`: replaced by integer milliseconds. The source compares float
  seconds with `> 30`; the model compares milliseconds with `> 30000`. The
  source also reads the clock again after a mutation, a few microseconds after
  the comparison; the model resets the timer to the same `now`.
- The elapsed-time display: rendering only.
- Whether the maze can be solved: the code neither checks it nor promises it.
- A mutation can wall the player's own cell: `dynamic_maze` (line 84) skips only the start and the exit. The player then stands on a wall until the next move, so the model's invariant states no walkability for the player's cell.
- Orbs are not checked again after a mutation: an orb can end up on a wall. The model keeps that behaviour and states no walkability invariant for orbs after spawning.
- Orbs.RemoveFirst: the `ValueError` that `list.remove` raises for an absent value is not modelled. The collection loop only removes values that are present, and `Orbs.CollectLoop` proves this.

=== FILE: game.dfy ===
/** The per-frame game-state update of Memory Maze. The module-level
    variables of the game (maze, player position, shadow trail, orbs, score,
    darkness, the running flag and the mutation timer) form one immutable
    record, and one frame is a pure function of that record, the pressed keys,
    the quit event, the wall clock and the random picks a mutation would use. */
module Game {
  import opened Grid
  import opened MazeGen
  import opened Orbs
  import opened Movement
  import opened Shadow

  /** The maze mutates once more than 30 seconds have passed since the last
      mutation; the clock is in milliseconds. */
  const MUTATION_INTERVAL_MS := 30000

  /** `running`, refined by why it became false. */
  datatype Status = Running | Quit | Caught | Escaped

  datatype GameState = GameState(
    maze: Maze,
    player: Cell,
    trail: seq<Cell>,
    orbs: seq<Cell>,
    score: nat,
    darkness: nat,
    status: Status,
    lastMutation: int)

  /** Everything one frame reads from outside: a quit event, the pressed keys,
      the wall clock in milliseconds, and the five random cells a mutation
      in this frame would pick. */
  datatype Frame = Frame(quit: bool, keys: Keys, now: int, mutationPicks: seq<Cell>)

  /** What the update needs to index the maze safely. */
  predicate Valid(s: GameState) {
    WellFormed(s.maze) && InBounds(s.player)
  }

  predicate FrameOk(f: Frame) {
    |f.mutationPicks| == MUTATION_PICKS && AllInBounds(f.mutationPicks)
  }

  /** The invariant every reachable state keeps within a frame. */
  predicate Consistent(s: GameState) {
    && Valid(s)
    && Walkable(s.maze, Start) && Walkable(s.maze, Exit)
    && AllInBounds(s.trail) && AllInBounds(s.orbs)
    // one trail entry and one point per frame with a move
    && s.score == |s.trail|
    // the newest trail entry is where the player stands
    && s.player == (if |s.trail| == 0 then Start else s.trail[|s.trail| - 1])
  }

  /** The invariant every reachable state keeps between frames: in addition,
      a running game has never ended a frame on the exit. */
  predicate Inv(s: GameState) {
    Consistent(s) && (s.status == Running ==> Exit !in s.trail)
  }

  /** Program start: generate the maze, spawn the orbs on it, start the
      mutation timer. */
  function Initial(wallPicks: seq<Cell>, orbPicks: seq<Cell>, now: int): (s: GameState)
    requires |wallPicks| == WALL_PICKS && AllInBounds(wallPicks)
    requires |orbPicks| == ORB_ATTEMPTS && AllInBounds(orbPicks)
    ensures Inv(s) && s.status == Running
    ensures s.player == Start && s.trail == [] && s.score == 0 && s.darkness == 0
    ensures |s.orbs| <= ORB_ATTEMPTS && forall i :: 0 <= i < |s.orbs| ==> Walkable(s.maze, s.orbs[i])
    ensures s.lastMutation == now
  {
    var maze := GenerateMaze(wallPicks);
    GameState(maze, Start, [], SpawnOrbs(maze, orbPicks), 0, 0, Running, now)
  }

  /** The movement step and its bookkeeping: when any direction applied, the
      score rises by one, the new position is appended to the trail and the
      darkness rises by DARKNESS_STEP, once per frame however many
      directions applied. */
  function ApplyMove(s: GameState, keys: Keys): (r: GameState)
    requires Valid(s)
    ensures Valid(r)
    ensures r.maze == s.maze && r.orbs == s.orbs && r.status == s.status && r.lastMutation == s.lastMutation
    ensures Move(s.maze, s.player, keys).moved ==>
      && r.player == Move(s.maze, s.player, keys).pos && Walkable(r.maze, r.player)
      && r.score == s.score + 1 && r.trail == s.trail + [r.player] && r.darkness == s.darkness + DARKNESS_STEP
    ensures !Move(s.maze, s.player, keys).moved ==>
      r.player == s.player && r.score == s.score && r.trail == s.trail && r.darkness == s.darkness
  {
    var mv := Move(s.maze, s.player, keys);
    if mv.moved then
      s.(player := mv.pos, score := s.score + 1, trail := s.trail + [mv.pos], darkness := s.darkness + DARKNESS_STEP)
    else
      s
  }

  /** Orb collection at the player's cell. */
  function Collect(s: GameState): (r: GameState)
    ensures r.orbs == Without(s.orbs, s.player) && s.player !in r.orbs
    ensures |r.orbs| + multiset(s.orbs)[s.player] == |s.orbs|
    ensures r.darkness == ClampAtZero(s.darkness - ORB_LIGHT * multiset(s.orbs)[s.player])
    ensures r.(orbs := s.orbs, darkness := s.darkness) == s
  {
    var (orbs, darkness) := CollectOrbs(s.orbs, s.player, s.darkness);
    s.(orbs := orbs, darkness := darkness)
  }

  /** The mutation timer: more than MUTATION_INTERVAL_MS after the last
      mutation, the maze mutates and the timer restarts at `now`. */
  function MaybeMutate(s: GameState, now: int, picks: seq<Cell>): (r: GameState)
    requires WellFormed(s.maze) && |picks| == MUTATION_PICKS && AllInBounds(picks)
    ensures WellFormed(r.maze)
    ensures now - s.lastMutation <= MUTATION_INTERVAL_MS ==> r == s
    ensures now - s.lastMutation > MUTATION_INTERVAL_MS ==>
      && r.lastMutation == now
      && forall c :: InBounds(c) && c !in picks ==> At(r.maze, c) == At(s.maze, c)
    ensures At(r.maze, Start) == At(s.maze, Start) && At(r.maze, Exit) == At(s.maze, Exit)
    ensures r.(maze := s.maze, lastMutation := s.lastMutation) == s
  {
    if now - s.lastMutation > MUTATION_INTERVAL_MS then
      s.(maze := DynamicMaze(s.maze, picks), lastMutation := now)
    else
      s
  }

  /** When the timer fires, the maze mutates as `dynamic_maze` does: a cell
      other than start and exit flips exactly when it was picked an odd
      number of times. */
  lemma MaybeMutateToggles(s: GameState, now: int, picks: seq<Cell>, c: Cell)
    requires WellFormed(s.maze) && |picks| == MUTATION_PICKS && AllInBounds(picks) && InBounds(c)
    requires now - s.lastMutation > MUTATION_INTERVAL_MS
    ensures At(MaybeMutate(s, now, picks).maze, c) ==
      (if c != Start && c != Exit && multiset(picks)[c] % 2 == 1 then Flip(At(s.maze, c)) else At(s.maze, c))
  {
    MutateParity(s.maze, picks, c);
  }

  /** The end-of-frame checks, capture first, then the exit; a quit event
      seen earlier in the frame also stops the game. */
  function Conclude(s: GameState, quit: bool): (r: GameState)
    requires s.status == Running
    ensures r.(status := s.status) == s
    ensures r.status == Caught <==> Captured(s.trail, s.player)
    ensures r.status == Escaped <==> !Captured(s.trail, s.player) && s.player == Exit
    ensures r.status == Running <==> !Captured(s.trail, s.player) && s.player != Exit && !quit
  {
    if Captured(s.trail, s.player) then s.(status := Caught)
    else if s.player == Exit then s.(status := Escaped)
    else if quit then s.(status := Quit)
    else s
  }

  /** One pass of the game loop. Once the game has stopped the loop has
      exited, so nothing changes. */
  function Step(s: GameState, f: Frame): (r: GameState)
    requires Valid(s) && FrameOk(f)
    ensures Valid(r)
    ensures s.status != Running ==> r == s
    ensures |r.orbs| <= |s.orbs|
    ensures s.status == Running ==> r.orbs == Without(s.orbs, r.player) && r.player !in r.orbs
    ensures At(r.maze, Start) == At(s.maze, Start) && At(r.maze, Exit) == At(s.maze, Exit)
    ensures s.score <= r.score <= s.score + 1
    ensures r.score > s.score ==> r.trail == s.trail + [r.player]
    ensures r.score == s.score ==> r.trail == s.trail
  {
    if s.status != Running then s
    else
      var moved := ApplyMove(s, f.keys);
      var collected := Collect(moved);
      var mutated := MaybeMutate(collected, f.now, f.mutationPicks);
      Conclude(mutated, f.quit)
  }

  /** A running frame scores exactly when the movement step moved the player,
      so the trail grows by one entry per frame with a move. */
  lemma StepScoresOnMove(s: GameState, f: Frame)
    requires Valid(s) && FrameOk(f) && s.status == Running
    ensures Step(s, f).score == s.score + (if Move(s.maze, s.player, f.keys).moved then 1 else 0)
    ensures Move(s.maze, s.player, f.keys).moved ==> Step(s, f).trail == s.trail + [Step(s, f).player]
    ensures !Move(s.maze, s.player, f.keys).moved ==> Step(s, f).trail == s.trail
  {
    var moved := ApplyMove(s, f.keys);
    assert Step(s, f).score == moved.score && Step(s, f).trail == moved.trail;
  }

  /** Darkness over a whole running frame: +DARKNESS_STEP for a move, then
      ORB_LIGHT off for each orb on the cell the player ends on, never below
      zero. */
  lemma StepDarkness(s: GameState, f: Frame)
    requires Valid(s) && FrameOk(f) && s.status == Running
    ensures Step(s, f).darkness == ClampAtZero(s.darkness
      + (if Move(s.maze, s.player, f.keys).moved then DARKNESS_STEP else 0)
      - ORB_LIGHT * multiset(s.orbs)[Step(s, f).player])
  {
    var moved := ApplyMove(s, f.keys);
    assert Step(s, f).player == moved.player && Step(s, f).darkness == Collect(moved).darkness;
  }

  lemma ApplyMoveConsistent(s: GameState, keys: Keys)
    requires Consistent(s)
    ensures Consistent(ApplyMove(s, keys))
  {}

  lemma CollectConsistent(s: GameState)
    requires Consistent(s)
    ensures Consistent(Collect(s))
  {
    WithoutInBounds(s.orbs, s.player);
  }

  lemma MaybeMutateConsistent(s: GameState, now: int, picks: seq<Cell>)
    requires Consistent(s) && |picks| == MUTATION_PICKS && AllInBounds(picks)
    ensures Consistent(MaybeMutate(s, now, picks))
  {}

  /** The invariant holds after every frame. */
  lemma StepPreservesInv(s: GameState, f: Frame)
    requires Inv(s) && FrameOk(f)
    ensures Inv(Step(s, f))
  {
    if s.status == Running {
      var moved := ApplyMove(s, f.keys);
      ApplyMoveConsistent(s, f.keys);
      var collected := Collect(moved);
      CollectConsistent(moved);
      var mutated := MaybeMutate(collected, f.now, f.mutationPicks);
      MaybeMutateConsistent(collected, f.now, f.mutationPicks);
      var r := Conclude(mutated, f.quit);
      assert r == Step(s, f);
      assert mutated.trail == moved.trail && mutated.player == moved.player;
      if r.status == Running {
        assert moved.player != Exit;
        assert moved.trail == s.trail || moved.trail == s.trail + [moved.player];
      }
    }
  }

  /** Capture and escape never happen in the same frame of a reachable game:
      the shadow only stands on cells the player reached in earlier frames,
      and no earlier frame of a running game ended on the exit. So checking
      capture before the exit never hides an escape. */
  lemma CaptureExcludesEscape(s: GameState, f: Frame)
    requires Inv(s) && FrameOk(f) && s.status == Running
    ensures Step(s, f).status == Caught ==> Step(s, f).player != Exit
    ensures Step(s, f).status == Escaped <==> Step(s, f).player == Exit
  {
    var moved := ApplyMove(s, f.keys);
    var t := moved.trail;
    if Captured(t, moved.player) {
      var k := |t| - SHADOW_DELAY;
      if Move(s.maze, s.player, f.keys).moved {
        assert t == s.trail + [moved.player];
        assert t[k] == s.trail[k] && s.trail[k] in s.trail;
      } else {
        assert t == s.trail && s.player == s.trail[|s.trail| - 1];
      }
      assert moved.player != Exit;
    }
  }

  /** A game loop over a sequence of frames. */
  function Run(s: GameState, frames: seq<Frame>): (r: GameState)
    requires Valid(s)
    requires forall i :: 0 <= i < |frames| ==> FrameOk(frames[i])
    ensures Valid(r)
    decreases |frames|
  {
    if |frames| == 0 then s else Run(Step(s, frames[0]), frames[1..])
  }

  /** Over any number of frames the invariant holds (so start and exit stay
      walkable and the player stays on the board), the orb list never grows,
      and the score never falls. */
  lemma {:induction false} RunPreservesInv(s: GameState, frames: seq<Frame>)
    requires Inv(s)
    requires forall i :: 0 <= i < |frames| ==> FrameOk(frames[i])
    ensures Inv(Run(s, frames))
    ensures |Run(s, frames).orbs| <= |s.orbs|
    ensures Run(s, frames).score >= s.score
    ensures s.trail <= Run(s, frames).trail
    decreases |frames|
  {
    if |frames| > 0 {
      StepPreservesInv(s, frames[0]);
      RunPreservesInv(Step(s, frames[0]), frames[1..]);
    }
  }

  /** Once the game has stopped, no further frame changes anything. */
  lemma {:induction false} RunAfterEnd(s: GameState, frames: seq<Frame>)
    requires Valid(s) && s.status != Running
    requires forall i :: 0 <= i < |frames| ==> FrameOk(frames[i])
    ensures Run(s, frames) == s
    decreases |frames|
  {
    if |frames| > 0 {
      RunAfterEnd(Step(s, frames[0]), frames[1..]);
    }
  }

  /** Reference record of a run: the player's position at the end of each
      frame that scored a point, in frame order. By StepScoresOnMove these
      are exactly the frames of the running game in which a move was made. */
  function MovedPositions(s: GameState, frames: seq<Frame>): (r: seq<Cell>)
    requires Valid(s)
    requires forall i :: 0 <= i < |frames| ==> FrameOk(frames[i])
    ensures |r| <= |frames|
    decreases |frames|
  {
    if |frames| == 0 then []
    else
      var next := Step(s, frames[0]);
      var rest := MovedPositions(next, frames[1..]);
      if next.score > s.score then [next.player] + rest else rest
  }

  /** The shadow trail is exactly the record of moving frames: each frame with
      a move appends where the player ended, and no other frame touches it. */
  lemma {:induction false} RunTrail(s: GameState, frames: seq<Frame>)
    requires Valid(s)
    requires forall i :: 0 <= i < |frames| ==> FrameOk(frames[i])
    ensures Run(s, frames).trail == s.trail + MovedPositions(s, frames)
    decreases |frames|
  {
    if |frames| > 0 {
      var next := Step(s, frames[0]);
      var rest := MovedPositions(next, frames[1..]);
      RunTrail(next, frames[1..]);
      assert Run(s, frames) == Run(next, frames[1..]);
      if next.score > s.score {
        assert MovedPositions(s, frames) == [next.player] + rest;
        AppendAssoc(s.trail, [next.player], rest);
      } else {
        assert MovedPositions(s, frames) == rest;
        assert next.trail == s.trail;
      }
    }
  }

  /** Kept as its own lemma: the same assertion made inline in RunTrail
      sends the solver through the unfolding of Run and Step. */
  lemma AppendAssoc(a: seq<Cell>, b: seq<Cell>, c: seq<Cell>)
    ensures a + (b + c) == (a + b) + c
  {}

  /** Over a whole game from the start, the trail the shadow reads is exactly
      the record of frames with a move. */
  lemma {:induction false} TrailFromStart(s: GameState, frames: seq<Frame>)
    requires Valid(s) && s.trail == []
    requires forall i :: 0 <= i < |frames| ==> FrameOk(frames[i])
    ensures Run(s, frames).trail == MovedPositions(s, frames)
  {
    RunTrail(s, frames);
    assert s.trail + MovedPositions(s, frames) == MovedPositions(s, frames);
  }

  /** In every reachable state the newest trail entry is the player's cell, so
      once the trail is longer than SHADOW_DELAY the shadow stands on the
      trail entry SHADOW_DELAY - 1 places before the player's; with
      TrailFromStart, that is where the player ended the moving frame nine
      moving frames before the latest one. */
  lemma ShadowBehindPlayer(s: GameState)
    requires Inv(s)
    ensures ShadowPos(s.trail).Some? <==> |s.trail| > SHADOW_DELAY
    ensures |s.trail| > SHADOW_DELAY ==>
      && s.trail[|s.trail| - 1] == s.player
      && ShadowPos(s.trail) == Some(s.trail[(|s.trail| - 1) - (SHADOW_DELAY - 1)])
  {
    if |s.trail| > SHADOW_DELAY {
      ShadowLag(s.trail);
    }
  }

  /** A frame in which the player moves onto a cell holding exactly one orb
      while the darkness is 40: the move adds 5, the orb takes 50, and the
      darkness floors at 0 with one orb fewer. */
  lemma OrbFloorsDarkness(s: GameState, f: Frame)
    requires Inv(s) && FrameOk(f) && s.status == Running && s.darkness == 40
    requires Move(s.maze, s.player, f.keys).moved
    requires multiset(s.orbs)[Move(s.maze, s.player, f.keys).pos] == 1
    ensures Step(s, f).darkness == 0
    ensures |Step(s, f).orbs| == |s.orbs| - 1
  {
    var moved := ApplyMove(s, f.keys);
    assert moved.darkness == 45;
    assert Collect(moved).darkness == 0;
  }

  /** A frame that moves right onto an open, orb-free cell that is not the
      exit, early in the game (no shadow yet) and with no mutation due,
      changes only the position, score, trail and darkness. */
  lemma StepRight(s: GameState, f: Frame)
    requires Inv(s) && s.status == Running && FrameOk(f)
    requires f.keys == Only(Right) && !f.quit && f.now - s.lastMutation <= MUTATION_INTERVAL_MS
    requires |s.trail| < SHADOW_DELAY
    requires InBounds(Neighbour(s.player, Right)) && Walkable(s.maze, Neighbour(s.player, Right))
    requires Neighbour(s.player, Right) !in s.orbs && Neighbour(s.player, Right) != Exit
    ensures Step(s, f) == s.(player := Neighbour(s.player, Right), score := s.score + 1,
                              trail := s.trail + [Neighbour(s.player, Right)],
                              darkness := s.darkness + DARKNESS_STEP)
  {
    SingleKeyMove(s.maze, s.player, Right);
  }

  /** StepRight together with the invariant of the state it reaches. */
  lemma StepRightKeepsRunning(s: GameState, f: Frame)
    requires Inv(s) && s.status == Running && FrameOk(f)
    requires f.keys == Only(Right) && !f.quit && f.now - s.lastMutation <= MUTATION_INTERVAL_MS
    requires |s.trail| < SHADOW_DELAY
    requires InBounds(Neighbour(s.player, Right)) && Walkable(s.maze, Neighbour(s.player, Right))
    requires Neighbour(s.player, Right) !in s.orbs && Neighbour(s.player, Right) != Exit
    ensures Inv(Step(s, f)) && Step(s, f).status == Running
    ensures Step(s, f).player == Neighbour(s.player, Right)
    ensures Step(s, f).score == s.score + 1 && Step(s, f).darkness == s.darkness + DARKNESS_STEP
    ensures |Step(s, f).trail| == |s.trail| + 1
    ensures Step(s, f).maze == s.maze && Step(s, f).orbs == s.orbs && Step(s, f).lastMutation == s.lastMutation
  {
    StepRight(s, f);
    StepPreservesInv(s, f);
  }

  /** Pressing right three frames in a row from the start along open floor,
      with no orbs and no mutation due on the way, puts the player on (0, 3)
      with score 3 and darkness 15. */
  lemma ThreeMovesRight(s: GameState, f1: Frame, f2: Frame, f3: Frame)
    requires Inv(s) && s.status == Running && s.player == Start && s.score == 0 && s.darkness == 0
    requires FrameOk(f1) && FrameOk(f2) && FrameOk(f3)
    requires f1.keys == f2.keys == f3.keys == Only(Right)
    requires !f1.quit && !f2.quit && !f3.quit
    requires f1.now - s.lastMutation <= MUTATION_INTERVAL_MS
    requires f2.now - s.lastMutation <= MUTATION_INTERVAL_MS
    requires f3.now - s.lastMutation <= MUTATION_INTERVAL_MS
    requires Walkable(s.maze, Cell(0, 1)) && Walkable(s.maze, Cell(0, 2)) && Walkable(s.maze, Cell(0, 3))
    requires Cell(0, 1) !in s.orbs && Cell(0, 2) !in s.orbs && Cell(0, 3) !in s.orbs
    ensures var r := Step(Step(Step(s, f1), f2), f3);
      r.player == Cell(0, 3) && r.score == 3 && r.darkness == 15 && r.status == Running
  {
    StepRightKeepsRunning(s, f1);
    var s1 := Step(s, f1);
    StepRightKeepsRunning(s1, f2);
    var s2 := Step(s1, f2);
    StepRightKeepsRunning(s2, f3);
  }
}

=== FILE: grid.dfy ===
/** Geometry of the Memory Maze board: the tile grid derived from the maze
    area's pixel size, cells, and the 0/1 maze grid the game indexes as
    `maze[row][col]`. */
module Grid {

  /** Pixel size of one maze tile. */
  const TILE_SIZE := 40
  /** Pixel size of the maze area (the HUD panel to its right is not part of the grid). */
  const MAZE_WIDTH := 700
  const MAZE_HEIGHT := 600

  /** Grid dimensions: 600 / 40 = 15 rows and 700 / 40 = 17 columns (floor division). */
  const ROWS := MAZE_HEIGHT / TILE_SIZE
  const COLS := MAZE_WIDTH / TILE_SIZE

  /** Cell values: 0 is walkable floor, 1 is a wall. */
  const FLOOR := 0
  const WALL := 1

  /** A (row, column) grid position; the player position, orbs, trail entries
      and random picks are all cells. */
  datatype Cell = Cell(row: int, col: int)

  /** The player's starting cell and the exit cell. */
  const Start := Cell(0, 0)
  const Exit := Cell(ROWS - 1, COLS - 1)

  /** The maze as the game stores it: a list of rows of 0/1 values. */
  type Maze = seq<seq<int>>

  predicate InBounds(c: Cell) {
    0 <= c.row < ROWS && 0 <= c.col < COLS
  }

  /** Every cell of a sequence of cells lies on the board (what
      `random.randint(0, ROWS-1)`, `random.randint(0, COLS-1)` guarantee). */
  predicate AllInBounds(cells: seq<Cell>) {
    forall i :: 0 <= i < |cells| ==> InBounds(cells[i])
  }

  /** A ROWS x COLS grid whose every cell holds FLOOR or WALL. */
  predicate WellFormed(m: Maze) {
    && |m| == ROWS
    && forall r :: 0 <= r < ROWS ==>
         && |m[r]| == COLS
         && forall c :: 0 <= c < COLS ==> m[r][c] == FLOOR || m[r][c] == WALL
  }

  function At(m: Maze, c: Cell): (v: int)
    requires WellFormed(m) && InBounds(c)
    ensures v == FLOOR || v == WALL
  {
    m[c.row][c.col]
  }

  predicate Walkable(m: Maze, c: Cell)
    requires WellFormed(m) && InBounds(c)
  {
    At(m, c) == FLOOR
  }

  /** The grid with one cell overwritten (`maze[row][col] = v`). */
  function SetCell(m: Maze, c: Cell, v: int): (r: Maze)
    requires WellFormed(m) && InBounds(c)
    requires v == FLOOR || v == WALL
    ensures WellFormed(r)
    ensures At(r, c) == v
    ensures forall d :: InBounds(d) && d != c ==> At(r, d) == At(m, d)
  {
    m[c.row := m[c.row][c.col := v]]
  }

  /** The maze built by `[[0 for _ in range(COLS)] for _ in range(ROWS)]`. */
  function EmptyMaze(): (m: Maze)
    ensures WellFormed(m)
    ensures forall c :: InBounds(c) ==> At(m, c) == FLOOR
  {
    seq(ROWS, _ => seq(COLS, _ => FLOOR))
  }

  /** The set of wall cells of a maze. */
  function WallCells(m: Maze): (w: set<Cell>)
    requires WellFormed(m)
    ensures forall c :: c in w <==> InBounds(c) && At(m, c) == WALL
  {
    set i, j | 0 <= i < ROWS && 0 <= j < COLS && m[i][j] == WALL :: Cell(i, j)
  }

  /** Two well-formed mazes that agree on every cell are the same maze. */
  lemma {:induction false} MazeExtensionality(a: Maze, b: Maze)
    requires WellFormed(a) && WellFormed(b)
    requires forall c :: InBounds(c) ==> At(a, c) == At(b, c)
    ensures a == b
  {
    forall i | 0 <= i < ROWS
      ensures a[i] == b[i]
    {
      forall j | 0 <= j < COLS
        ensures a[i][j] == b[i][j]
      {
        assert At(a, Cell(i, j)) == At(b, Cell(i, j));
      }
    }
  }

  /** A set drawn from a sequence has no more elements than the sequence. */
  lemma {:induction false} CardElementsAtMost<T>(s: seq<T>)
    ensures |set x | x in s| <= |s|
  {
    if |s| > 0 {
      CardElementsAtMost(s[1..]);
      assert (set x | x in s) == (set x | x in s[1..]) + {s[0]};
    }
  }

  lemma {:induction false} CardSubset<T>(a: set<T>, b: set<T>)
    requires a <= b
    ensures |a| <= |b|
  {
    assert b == a + (b - a);
  }
}

=== FILE: mazegen.dfy ===
/** Maze generation (`generate_maze`) and the periodic maze mutation
    (`dynamic_maze`). The random cell picks the source draws with
    `random.randint` are passed in as a sequence of in-bounds cells, consumed
    in the order the source draws them. */
module MazeGen {
  import opened Grid

  /** Number of random wall placements: (ROWS * COLS) // 3 = 85. */
  const WALL_PICKS := (ROWS * COLS) / 3
  /** Number of random cells one mutation draws. */
  const MUTATION_PICKS := 5

  lemma GridConstants()
    ensures ROWS == 15 && COLS == 17 && WALL_PICKS == 85
    ensures Start != Exit && InBounds(Start) && InBounds(Exit)
  {}

  /** Writes a wall at every pick, in order (the loop of `generate_maze`).
      Afterwards a cell is a wall exactly when it was picked or already was one. */
  function PlaceWalls(m: Maze, picks: seq<Cell>): (r: Maze)
    requires WellFormed(m) && AllInBounds(picks)
    ensures WellFormed(r)
    ensures forall c :: InBounds(c) ==> At(r, c) == (if c in picks then WALL else At(m, c))
    decreases |picks|
  {
    if |picks| == 0 then m
    else
      assert forall c :: c in picks <==> c == picks[0] || c in picks[1..];
      PlaceWalls(SetCell(m, picks[0], WALL), picks[1..])
  }

  /** `generate_maze`: an empty grid, a wall at each pick, then the start and
      exit cells cleared. */
  function GenerateMaze(picks: seq<Cell>): (r: Maze)
    requires |picks| == WALL_PICKS && AllInBounds(picks)
    ensures WellFormed(r)
    ensures Walkable(r, Start) && Walkable(r, Exit)
    ensures forall c :: InBounds(c) ==> (At(r, c) == WALL <==> c in picks && c != Start && c != Exit)
    ensures |WallCells(r)| <= WALL_PICKS
  {
    var walled := PlaceWalls(EmptyMaze(), picks);
    var r := SetCell(SetCell(walled, Start, FLOOR), Exit, FLOOR);
    WallCountBound(r, picks);
    r
  }

  /** A maze whose walls all come from the picks has at most |picks| walls. */
  lemma {:induction false} WallCountBound(m: Maze, picks: seq<Cell>)
    requires WellFormed(m)
    requires forall c :: InBounds(c) && At(m, c) == WALL ==> c in picks
    ensures |WallCells(m)| <= |picks|
  {
    assert WallCells(m) <= set x | x in picks;
    CardSubset(WallCells(m), set x | x in picks);
    CardElementsAtMost(picks);
  }

  /** Wall becomes floor and floor becomes wall. */
  function Flip(v: int): (w: int)
    requires v == FLOOR || v == WALL
    ensures (w == FLOOR || w == WALL) && w != v
  {
    if v == FLOOR then WALL else FLOOR
  }

  lemma FlipTwice(v: int)
    requires v == FLOOR || v == WALL
    ensures Flip(Flip(v)) == v
  {}

  /** One iteration of `dynamic_maze`: the picked cell is toggled unless it
      is the start or the exit cell. */
  function MutateOne(m: Maze, pick: Cell): (r: Maze)
    requires WellFormed(m) && InBounds(pick)
    ensures WellFormed(r)
    ensures forall c :: InBounds(c) ==>
      At(r, c) == (if c == pick && c != Start && c != Exit then Flip(At(m, c)) else At(m, c))
  {
    if pick != Start && pick != Exit then SetCell(m, pick, Flip(At(m, pick))) else m
  }

  /** Applies a sequence of mutation picks in order. The start and exit cells
      and every cell that was not picked keep their value. */
  function Mutate(m: Maze, picks: seq<Cell>): (r: Maze)
    requires WellFormed(m) && AllInBounds(picks)
    ensures WellFormed(r)
    ensures At(r, Start) == At(m, Start) && At(r, Exit) == At(m, Exit)
    ensures forall c :: InBounds(c) && c !in picks ==> At(r, c) == At(m, c)
    decreases |picks|
  {
    if |picks| == 0 then m
    else
      assert forall c :: c !in picks ==> c != picks[0] && c !in picks[1..];
      Mutate(MutateOne(m, picks[0]), picks[1..])
  }

  /** `dynamic_maze`: five picks, each toggling its cell unless it is the
      start or the exit. */
  function DynamicMaze(m: Maze, picks: seq<Cell>): (r: Maze)
    requires WellFormed(m) && |picks| == MUTATION_PICKS && AllInBounds(picks)
    ensures WellFormed(r)
    ensures At(r, Start) == At(m, Start) && At(r, Exit) == At(m, Exit)
    ensures forall c :: InBounds(c) && c !in picks ==> At(r, c) == At(m, c)
  {
    Mutate(m, picks)
  }

  /** Reference semantics of a mutation: a cell other than start and exit ends
      up flipped exactly when it was picked an odd number of times. */
  lemma {:induction false} MutateParity(m: Maze, picks: seq<Cell>, c: Cell)
    requires WellFormed(m) && AllInBounds(picks) && InBounds(c)
    ensures At(Mutate(m, picks), c) ==
      (if c != Start && c != Exit && multiset(picks)[c] % 2 == 1 then Flip(At(m, c)) else At(m, c))
    decreases |picks|
  {
    if |picks| > 0 {
      var m1 := MutateOne(m, picks[0]);
      var rest := picks[1..];
      assert Mutate(m, picks) == Mutate(m1, rest);
      MutateParity(m1, rest, c);
      CountCons(picks, c);
      var k := multiset(rest)[c];
      if c == Start || c == Exit {
      } else if c == picks[0] {
        assert At(m1, c) == Flip(At(m, c));
        FlipTwice(At(m, c));
        ParityStep(k);
      } else {
        assert At(m1, c) == At(m, c);
      }
    }
  }

  lemma ParityStep(k: nat)
    ensures ((k + 1) % 2 == 1) <==> (k % 2 == 0)
  {}

  lemma CountCons<T>(s: seq<T>, x: T)
    requires |s| > 0
    ensures multiset(s)[x] == (if x == s[0] then 1 else 0) + multiset(s[1..])[x]
  {
    assert s == [s[0]] + s[1..];
  }

  /** Only the multiset of picks matters: the order of the picks does not. */
  lemma MutateOrderIrrelevant(m: Maze, a: seq<Cell>, b: seq<Cell>)
    requires WellFormed(m) && AllInBounds(a) && AllInBounds(b)
    requires multiset(a) == multiset(b)
    ensures Mutate(m, a) == Mutate(m, b)
  {
    forall c | InBounds(c)
      ensures At(Mutate(m, a), c) == At(Mutate(m, b), c)
    {
      MutateParity(m, a, c);
      MutateParity(m, b, c);
    }
    MazeExtensionality(Mutate(m, a), Mutate(m, b));
  }

  /** Picks that name every cell an even number of times restore the maze. */
  lemma MutateEvenRestores(m: Maze, picks: seq<Cell>)
    requires WellFormed(m) && AllInBounds(picks)
    requires forall c :: multiset(picks)[c] % 2 == 0
    ensures Mutate(m, picks) == m
  {
    forall c | InBounds(c)
      ensures At(Mutate(m, picks), c) == At(m, c)
    {
      MutateParity(m, picks, c);
    }
    MazeExtensionality(Mutate(m, picks), m);
  }

  /** Mutating with two batches in turn is mutating with their concatenation. */
  lemma {:induction false} MutateAppend(m: Maze, a: seq<Cell>, b: seq<Cell>)
    requires WellFormed(m) && AllInBounds(a) && AllInBounds(b)
    ensures AllInBounds(a + b)
    ensures Mutate(m, a + b) == Mutate(Mutate(m, a), b)
    decreases |a|
  {
    if |a| > 0 {
      assert (a + b)[0] == a[0] && (a + b)[1..] == a[1..] + b;
      var m1 := MutateOne(m, a[0]);
      assert Mutate(m, a + b) == Mutate(m1, a[1..] + b);
      assert Mutate(m, a) == Mutate(m1, a[1..]);
      MutateAppend(m1, a[1..], b);
    } else {
      assert a + b == b;
    }
  }

  /** Picking the same cell twice restores it. */
  lemma MutateTwiceRestores(m: Maze, c: Cell)
    requires WellFormed(m) && InBounds(c)
    ensures Mutate(m, [c, c]) == m
  {
    var once := MutateOne(m, c);
    assert [c, c][1..] == [c] && [c][1..] == [];
    assert Mutate(m, [c, c]) == Mutate(once, [c]);
    assert Mutate(once, [c]) == Mutate(MutateOne(once, c), []);
    forall d | InBounds(d)
      ensures At(MutateOne(once, c), d) == At(m, d)
    {
      FlipTwice(At(m, d));
    }
    MazeExtensionality(MutateOne(once, c), m);
  }

  /** A mutation whose five picks are two repeated cells and the start or exit
      cell leaves the maze as it was. */
  lemma DynamicMazePairsRestore(m: Maze, a: Cell, b: Cell, e: Cell)
    requires WellFormed(m) && InBounds(a) && InBounds(b)
    requires e == Start || e == Exit
    ensures DynamicMaze(m, [a, a, b, b, e]) == m
  {
    assert [a, a, b, b, e] == [a, a] + ([b, b] + [e]);
    MutateAppend(m, [a, a], [b, b] + [e]);
    MutateTwiceRestores(m, a);
    MutateAppend(m, [b, b], [e]);
    MutateTwiceRestores(m, b);
    assert Mutate(m, [e]) == MutateOne(m, e);
  }

  /** Start and exit stay walkable after any number of mutations. */
  lemma {:induction false} EndsWalkableAfterMutations(m: Maze, batches: seq<seq<Cell>>)
    requires WellFormed(m) && Walkable(m, Start) && Walkable(m, Exit)
    requires forall i :: 0 <= i < |batches| ==> |batches[i]| == MUTATION_PICKS && AllInBounds(batches[i])
    ensures WellFormed(MutateAll(m, batches))
    ensures Walkable(MutateAll(m, batches), Start) && Walkable(MutateAll(m, batches), Exit)
    decreases |batches|
  {
    if |batches| > 0 {
      EndsWalkableAfterMutations(DynamicMaze(m, batches[0]), batches[1..]);
    }
  }

  /** Successive mutations, one batch of picks each. */
  function MutateAll(m: Maze, batches: seq<seq<Cell>>): (r: Maze)
    requires WellFormed(m)
    requires forall i :: 0 <= i < |batches| ==> |batches[i]| == MUTATION_PICKS && AllInBounds(batches[i])
    decreases |batches|
  {
    if |batches| == 0 then m else MutateAll(DynamicMaze(m, batches[0]), batches[1..])
  }
}

=== FILE: movement.dfy ===
/** The movement step of one frame: the up, down, left and right keys are
    checked in that order, each against the position the previous checks left
    behind, so two orthogonal moves (or a move and its reverse) can both apply
    in the same frame. */
module Movement {
  import opened Grid

  /** The pressed-key snapshot of one frame. The flashback key only triggers a
      display that changes no game state. */
  datatype Keys = Keys(up: bool, down: bool, left: bool, right: bool, flashback: bool)

  datatype Direction = Up | Down | Left | Right

  /** What the movement step yields: the new position and whether any
      direction applied (`move_made`). */
  datatype MoveResult = MoveResult(pos: Cell, moved: bool)

  const NoKeys := Keys(false, false, false, false, false)

  function Pressed(keys: Keys, d: Direction): bool {
    match d
    case Up => keys.up
    case Down => keys.down
    case Left => keys.left
    case Right => keys.right
  }

  /** The key set with only `d` held. */
  function Only(d: Direction): (keys: Keys)
    ensures forall e :: Pressed(keys, e) <==> e == d
  {
    match d
    case Up => NoKeys.(up := true)
    case Down => NoKeys.(down := true)
    case Left => NoKeys.(left := true)
    case Right => NoKeys.(right := true)
  }

  function Opposite(d: Direction): Direction {
    match d
    case Up => Down
    case Down => Up
    case Left => Right
    case Right => Left
  }

  /** The orthogonal neighbour of `c` in direction `d`. */
  function Neighbour(c: Cell, d: Direction): Cell {
    match d
    case Up => Cell(c.row - 1, c.col)
    case Down => Cell(c.row + 1, c.col)
    case Left => Cell(c.row, c.col - 1)
    case Right => Cell(c.row, c.col + 1)
  }

  /** The guard the game evaluates for one direction: the boundary test on the
      current coordinate, then the maze value of the neighbouring cell. */
  predicate CanStep(m: Maze, c: Cell, d: Direction)
    requires WellFormed(m) && InBounds(c)
  {
    match d
    case Up => c.row > 0 && m[c.row - 1][c.col] == FLOOR
    case Down => c.row < ROWS - 1 && m[c.row + 1][c.col] == FLOOR
    case Left => c.col > 0 && m[c.row][c.col - 1] == FLOOR
    case Right => c.col < COLS - 1 && m[c.row][c.col + 1] == FLOOR
  }

  /** The per-direction guards mean: the neighbour is on the board and walkable. */
  lemma CanStepMeans(m: Maze, c: Cell, d: Direction)
    requires WellFormed(m) && InBounds(c)
    ensures CanStep(m, c, d) <==> InBounds(Neighbour(c, d)) && Walkable(m, Neighbour(c, d))
  {}

  /** One direction's check: move to the neighbour when the key is held and
      the neighbour is an on-board floor cell, otherwise stay. */
  function TryStep(m: Maze, c: Cell, d: Direction, pressed: bool): (r: MoveResult)
    requires WellFormed(m) && InBounds(c)
    ensures InBounds(r.pos)
    ensures r.moved <==> pressed && InBounds(Neighbour(c, d)) && Walkable(m, Neighbour(c, d))
    ensures r.moved ==> r.pos == Neighbour(c, d) && Walkable(m, r.pos)
    ensures !r.moved ==> r.pos == c
  {
    CanStepMeans(m, c, d);
    if pressed && CanStep(m, c, d) then MoveResult(Neighbour(c, d), true) else MoveResult(c, false)
  }

  /** The movement step of one frame. */
  function Move(m: Maze, p: Cell, keys: Keys): (r: MoveResult)
    requires WellFormed(m) && InBounds(p)
    ensures InBounds(r.pos)
    ensures r.moved ==> Walkable(m, r.pos)
    ensures !r.moved ==> r.pos == p
    ensures -1 <= r.pos.row - p.row <= 1 && -1 <= r.pos.col - p.col <= 1
    ensures !keys.up && !keys.down && !keys.left && !keys.right ==> r == MoveResult(p, false)
    ensures (forall d :: !(InBounds(Neighbour(p, d)) && Walkable(m, Neighbour(p, d)))) ==> r == MoveResult(p, false)
  {
    var u := TryStep(m, p, Up, keys.up);
    var v := TryStep(m, u.pos, Down, keys.down);
    var h := TryStep(m, v.pos, Left, keys.left);
    var k := TryStep(m, h.pos, Right, keys.right);
    MoveResult(k.pos, u.moved || v.moved || h.moved || k.moved)
  }

  /** With a single key held, the frame moves exactly when that direction's
      neighbour is an on-board floor cell, and then onto that neighbour. */
  lemma SingleKeyMove(m: Maze, p: Cell, d: Direction)
    requires WellFormed(m) && InBounds(p)
    ensures Move(m, p, Only(d)) ==
      if InBounds(Neighbour(p, d)) && Walkable(m, Neighbour(p, d))
      then MoveResult(Neighbour(p, d), true)
      else MoveResult(p, false)
  {
    CanStepMeans(m, p, d);
  }

  /** A single-key move from a floor cell is undone by the opposite key. */
  lemma MoveThenReverse(m: Maze, p: Cell, d: Direction)
    requires WellFormed(m) && InBounds(p) && Walkable(m, p)
    requires Move(m, p, Only(d)).moved
    ensures Move(m, Move(m, p, Only(d)).pos, Only(Opposite(d))) == MoveResult(p, true)
  {
    SingleKeyMove(m, p, d);
    var q := Neighbour(p, d);
    assert Neighbour(q, Opposite(d)) == p;
    SingleKeyMove(m, q, Opposite(d));
  }

  /** Holding up and down together on a floor cell whose upper neighbour is
      floor moves up and back within one frame: the frame counts as a move
      although the player ends where it started. */
  lemma UpDownCountsAsMove(m: Maze, p: Cell)
    requires WellFormed(m) && InBounds(p) && Walkable(m, p)
    requires InBounds(Neighbour(p, Up)) && Walkable(m, Neighbour(p, Up))
    ensures Move(m, p, NoKeys.(up := true, down := true)) == MoveResult(p, true)
  {
    CanStepMeans(m, p, Up);
    CanStepMeans(m, Neighbour(p, Up), Down);
  }

  /** Holding left and right on a floor cell whose left neighbour is floor
      moves left and back within one frame, since left is checked before
      right: the frame counts as a move although the player ends where it
      started. */
  lemma LeftRightCountsAsMove(m: Maze, p: Cell)
    requires WellFormed(m) && InBounds(p) && Walkable(m, p)
    requires InBounds(Neighbour(p, Left)) && Walkable(m, Neighbour(p, Left))
    ensures Move(m, p, NoKeys.(left := true, right := true)) == MoveResult(p, true)
  {
    CanStepMeans(m, p, Left);
    CanStepMeans(m, Neighbour(p, Left), Right);
  }

  /** Holding right and down on open floor gives a diagonal move in one frame. */
  lemma DiagonalInOneFrame(m: Maze, p: Cell)
    requires WellFormed(m) && InBounds(p)
    requires InBounds(Neighbour(p, Down)) && Walkable(m, Neighbour(p, Down))
    requires InBounds(Neighbour(Neighbour(p, Down), Right)) && Walkable(m, Neighbour(Neighbour(p, Down), Right))
    ensures Move(m, p, NoKeys.(down := true, right := true)) == MoveResult(Cell(p.row + 1, p.col + 1), true)
  {
    CanStepMeans(m, p, Down);
    CanStepMeans(m, Neighbour(p, Down), Right);
  }
}

=== FILE: orbs.dfy ===
/** Light orbs and the darkness counter: spawning orbs on walkable cells
    (`spawn_light_orbs`), collecting them as the player steps on them, and the
    darkness overlay's opacity. */
module Orbs {
  import opened Grid

  /** `spawn_light_orbs` makes exactly five random attempts. */
  const ORB_ATTEMPTS := 5
  /** Darkness removed by each collected orb. */
  const ORB_LIGHT := 50
  /** Darkness added by each frame in which the player moved. */
  const DARKNESS_STEP := 5
  /** Highest opacity of the darkness overlay. */
  const MAX_ALPHA := 200

  /** `a` is `b` with some entries dropped, the rest in their original order. */
  predicate IsSubsequence(a: seq<Cell>, b: seq<Cell>)
    decreases |b|
  {
    && |a| <= |b|
    && (|a| == 0 || (a[0] == b[0] && IsSubsequence(a[1..], b[1..])) || IsSubsequence(a, b[1..]))
  }

  /** The picks that land on walkable cells, in order. */
  function KeepWalkable(m: Maze, picks: seq<Cell>): (r: seq<Cell>)
    requires WellFormed(m) && AllInBounds(picks)
    ensures |r| <= |picks|
    ensures forall i :: 0 <= i < |r| ==> InBounds(r[i]) && Walkable(m, r[i])
    decreases |picks|
  {
    if |picks| == 0 then []
    else
      var rest := KeepWalkable(m, picks[1..]);
      if Walkable(m, picks[0]) then [picks[0]] + rest else rest
  }

  /** Each walkable cell is kept as often as it was picked, and no wall is kept. */
  lemma {:induction false} KeepWalkableCounts(m: Maze, picks: seq<Cell>, c: Cell)
    requires WellFormed(m) && AllInBounds(picks)
    ensures multiset(KeepWalkable(m, picks))[c] == (if InBounds(c) && Walkable(m, c) then multiset(picks)[c] else 0)
    decreases |picks|
  {
    if |picks| > 0 {
      KeepWalkableCounts(m, picks[1..], c);
      assert picks == [picks[0]] + picks[1..];
      var rest := KeepWalkable(m, picks[1..]);
      if Walkable(m, picks[0]) {
        assert multiset([picks[0]] + rest) == multiset{picks[0]} + multiset(rest);
      }
    }
  }

  /** The kept picks stay in the order they were drawn. */
  lemma {:induction false} KeepWalkableInOrder(m: Maze, picks: seq<Cell>)
    requires WellFormed(m) && AllInBounds(picks)
    ensures IsSubsequence(KeepWalkable(m, picks), picks)
    decreases |picks|
  {
    if |picks| > 0 {
      KeepWalkableInOrder(m, picks[1..]);
      var rest := KeepWalkable(m, picks[1..]);
      if Walkable(m, picks[0]) {
        assert ([picks[0]] + rest)[1..] == rest;
      }
    }
  }

  /** `spawn_light_orbs` on the initially empty orb list: one orb per attempt
      that lands on a walkable cell. Fewer than five orbs may result, and the
      same cell may appear more than once. */
  function SpawnOrbs(m: Maze, picks: seq<Cell>): (r: seq<Cell>)
    requires WellFormed(m) && |picks| == ORB_ATTEMPTS && AllInBounds(picks)
    ensures |r| <= ORB_ATTEMPTS
    ensures AllInBounds(r)
    ensures forall i :: 0 <= i < |r| ==> Walkable(m, r[i])
    ensures forall c :: multiset(r)[c] == (if InBounds(c) && Walkable(m, c) then multiset(picks)[c] else 0)
    ensures IsSubsequence(r, picks)
  {
    var spawned := KeepWalkable(m, picks);
    forall c
      ensures multiset(spawned)[c] == (if InBounds(c) && Walkable(m, c) then multiset(picks)[c] else 0)
    {
      KeepWalkableCounts(m, picks, c);
    }
    KeepWalkableInOrder(m, picks);
    spawned
  }

  /** Five attempts on the same walkable cell give five orbs on one cell. */
  lemma SpawnMayDuplicate(m: Maze, c: Cell)
    requires WellFormed(m) && InBounds(c) && Walkable(m, c)
    ensures SpawnOrbs(m, [c, c, c, c, c]) == [c, c, c, c, c]
  {}

  /** Five attempts that all land on walls give no orbs at all. */
  lemma SpawnMayComeUpShort(m: Maze, picks: seq<Cell>)
    requires WellFormed(m) && |picks| == ORB_ATTEMPTS && AllInBounds(picks)
    requires forall i :: 0 <= i < |picks| ==> At(m, picks[i]) == WALL
    ensures SpawnOrbs(m, picks) == []
  {
    var r := SpawnOrbs(m, picks);
    forall c
      ensures multiset(r)[c] == 0
    {
      if c in picks {
        var i :| 0 <= i < |picks| && picks[i] == c;
        assert !Walkable(m, c);
      }
    }
    assert multiset(r) == multiset{};
  }

  /** Reference definition of collection: the list with every entry equal to
      `x` dropped. */
  function Without(s: seq<Cell>, x: Cell): (r: seq<Cell>)
    ensures x !in r
    ensures |r| == |s| - multiset(s)[x]
    ensures forall y :: y != x ==> multiset(r)[y] == multiset(s)[y]
    ensures IsSubsequence(r, s)
    ensures x !in s ==> r == s
    decreases |s|
  {
    if |s| == 0 then []
    else
      var rest := Without(s[1..], x);
      assert s == [s[0]] + s[1..];
      if s[0] == x then rest
      else
        assert ([s[0]] + rest)[1..] == rest;
        [s[0]] + rest
  }

  /** Python's `list.remove`: drops the first entry equal to `x` (the source
      only calls it with an `x` that is present). */
  function RemoveFirst(s: seq<Cell>, x: Cell): (r: seq<Cell>)
    requires x in s
    ensures |r| == |s| - 1
    ensures multiset(r) == multiset(s) - multiset{x}
    decreases |s|
  {
    assert s == [s[0]] + s[1..];
    if s[0] == x then s[1..] else [s[0]] + RemoveFirst(s[1..], x)
  }

  /** When `x` does not occur in `w`, its first occurrence in `w + t` is the
      head of `t`. */
  lemma {:induction false} RemoveFirstAfterPrefix(w: seq<Cell>, t: seq<Cell>, x: Cell)
    requires x !in w && |t| > 0 && t[0] == x
    ensures RemoveFirst(w + t, x) == w + t[1..]
    decreases |w|
  {
    if |w| > 0 {
      assert (w + t)[0] == w[0] && (w + t)[1..] == w[1..] + t;
      RemoveFirstAfterPrefix(w[1..], t, x);
      assert w == [w[0]] + w[1..];
    }
  }

  /** `max(0, n)`: the darkness after subtracting light never goes below zero. */
  function ClampAtZero(n: int): (r: nat)
    ensures r >= n && (r == n || r == 0)
  {
    if n < 0 then 0 else n
  }

  /** The entries of the live list `cur` that the loop has already passed
      over: everything before the snapshot's unvisited part `todo`. */
  function Visited(cur: seq<Cell>, todo: seq<Cell>): seq<Cell>
    requires |todo| <= |cur|
  {
    cur[..|cur| - |todo|]
  }

  /** Loop state of the collection loop: the snapshot's unvisited part is
      the tail of the live list, and no visited entry equals `p`. */
  predicate Pending(todo: seq<Cell>, cur: seq<Cell>, p: Cell)
  {
    |todo| <= |cur| && cur[|cur| - |todo|..] == todo && p !in Visited(cur, todo)
  }

  /** The collection loop `for orb in light_orbs[:]`, iterating over a
      snapshot of the list while removing from the live list `cur`. */
  function CollectLoop(todo: seq<Cell>, cur: seq<Cell>, p: Cell, darkness: nat): (r: (seq<Cell>, nat))
    requires Pending(todo, cur, p)
    ensures r.0 == Visited(cur, todo) + Without(todo, p)
    ensures r.1 == ClampAtZero(darkness - ORB_LIGHT * multiset(todo)[p])
    decreases |todo|
  {
    if |todo| == 0 then
      assert cur[..|cur|] == cur;
      (cur, darkness)
    else if todo[0] == p then
      HitStep(cur, todo, p);
      var r := CollectLoop(todo[1..], RemoveFirst(cur, p), p, ClampAtZero(darkness - ORB_LIGHT));
      DropHit(todo, p);
      DecayStep(darkness, multiset(todo[1..])[p]);
      r
    else
      MissStep(cur, todo, p);
      var r := CollectLoop(todo[1..], cur, p, darkness);
      DropMiss(Visited(cur, todo), todo, p);
      r
  }

  /** A visited orb on the player's cell: it is in the live list, and
      `list.remove` takes out exactly that entry, since no earlier entry
      equals it. The visited part stays as it was. */
  lemma HitStep(cur: seq<Cell>, todo: seq<Cell>, p: Cell)
    requires |todo| > 0 && todo[0] == p && Pending(todo, cur, p)
    ensures p in cur
    ensures Pending(todo[1..], RemoveFirst(cur, p), p)
    ensures Visited(RemoveFirst(cur, p), todo[1..]) == Visited(cur, todo)
  {
    var w := Visited(cur, todo);
    assert w + todo == cur;
    assert cur[|w|] == p;
    RemoveFirstAfterPrefix(w, todo, p);
    var next := w + todo[1..];
    assert next[..|next| - |todo[1..]|] == w;
    assert next[|next| - |todo[1..]|..] == todo[1..];
  }

  /** A visited orb elsewhere: it stays, and joins the visited part. */
  lemma MissStep(cur: seq<Cell>, todo: seq<Cell>, p: Cell)
    requires |todo| > 0 && todo[0] != p && Pending(todo, cur, p)
    ensures Pending(todo[1..], cur, p)
    ensures Visited(cur, todo[1..]) == Visited(cur, todo) + [todo[0]]
  {}

  /** Dropping a leading `p` changes neither the filtered list nor anything
      but the count of `p`. */
  lemma DropHit(todo: seq<Cell>, p: Cell)
    requires |todo| > 0 && todo[0] == p
    ensures Without(todo, p) == Without(todo[1..], p)
    ensures multiset(todo)[p] == multiset(todo[1..])[p] + 1
  {
    assert todo == [todo[0]] + todo[1..];
  }

  /** A leading entry other than `p` survives the filter, ahead of the rest. */
  lemma DropMiss(w: seq<Cell>, todo: seq<Cell>, p: Cell)
    requires |todo| > 0 && todo[0] != p
    ensures w + Without(todo, p) == (w + [todo[0]]) + Without(todo[1..], p)
    ensures multiset(todo)[p] == multiset(todo[1..])[p]
  {
    assert todo == [todo[0]] + todo[1..];
  }

  lemma DecayStep(darkness: nat, k: nat)
    ensures ClampAtZero(ClampAtZero(darkness - ORB_LIGHT) - ORB_LIGHT * k) == ClampAtZero(darkness - ORB_LIGHT * (k + 1))
  {}

  /** Collection keeps only cells the orbs already held. */
  lemma {:induction false} WithoutInBounds(orbs: seq<Cell>, p: Cell)
    requires AllInBounds(orbs)
    ensures AllInBounds(Without(orbs, p))
    decreases |orbs|
  {
    if |orbs| > 0 {
      WithoutInBounds(orbs[1..], p);
    }
  }

  /** At the start of the loop nothing has been visited yet. */
  lemma StartCollect(orbs: seq<Cell>, p: Cell)
    ensures Pending(orbs, orbs, p) && Visited(orbs, orbs) == []
    ensures Visited(orbs, orbs) + Without(orbs, p) == Without(orbs, p)
  {}

  /** Orb collection for a player standing on `p`: every orb on `p` is
      removed, the others keep their order, and each removal takes ORB_LIGHT
      off the darkness, never below zero. */
  function CollectOrbs(orbs: seq<Cell>, p: Cell, darkness: nat): (r: (seq<Cell>, nat))
    ensures r.0 == Without(orbs, p)
    ensures p !in r.0 && IsSubsequence(r.0, orbs)
    ensures |orbs| - |r.0| == multiset(orbs)[p]
    ensures r.1 == ClampAtZero(darkness - ORB_LIGHT * multiset(orbs)[p])
    ensures p !in orbs ==> r == (orbs, darkness)
  {
    StartCollect(orbs, p);
    CollectLoop(orbs, orbs, p, darkness)
  }

  /** Opacity of the darkness overlay, `min(200, darkness_level)`. */
  function Alpha(darkness: nat): (a: nat)
    ensures a <= MAX_ALPHA && a <= darkness
    ensures darkness <= MAX_ALPHA ==> a == darkness
    ensures darkness >= MAX_ALPHA ==> a == MAX_ALPHA
  {
    if darkness < MAX_ALPHA then darkness else MAX_ALPHA
  }
}

=== FILE: shadow.dfy ===
/** The pursuing shadow: not a simulated agent but a lagged read of the
    player's own trail of post-move positions, `shadow_path[-shadow_delay]`,
    present only once the trail is longer than the delay. */
module Shadow {
  import opened Grid

  /** `shadow_delay`: the shadow is read 10 places from the end of the trail. */
  const SHADOW_DELAY := 10

  datatype Option<T> = None | Some(value: T)

  /** Python indexing `s[i]`, where a negative `i` counts from the end. */
  function PyIndex(s: seq<Cell>, i: int): Cell
    requires -|s| <= i < |s|
  {
    if i < 0 then s[|s| + i] else s[i]
  }

  /** The shadow's cell, read only when the trail holds more than
      SHADOW_DELAY entries. */
  function ShadowPos(trail: seq<Cell>): (r: Option<Cell>)
    ensures r.Some? <==> |trail| > SHADOW_DELAY
    ensures r.Some? ==> r.value == trail[|trail| - SHADOW_DELAY]
  {
    if |trail| > SHADOW_DELAY then Some(PyIndex(trail, -SHADOW_DELAY)) else None
  }

  /** The shadow trails the newest entry by SHADOW_DELAY - 1 moves: it sits
      on the cell the player reached nine moves before its latest one. */
  lemma ShadowLag(trail: seq<Cell>)
    requires |trail| > SHADOW_DELAY
    ensures ShadowPos(trail) == Some(trail[(|trail| - 1) - (SHADOW_DELAY - 1)])
  {}

  /** Each recorded move advances the shadow by exactly one trail entry. */
  lemma ShadowAdvances(trail: seq<Cell>, c: Cell)
    requires |trail| > SHADOW_DELAY
    ensures ShadowPos(trail + [c]) == Some(trail[|trail| - SHADOW_DELAY + 1])
  {}

  /** The shadow first appears when the eleventh move is recorded, and then on
      the trail's second entry: the first recorded cell is never a shadow cell. */
  lemma ShadowFirstAppears(trail: seq<Cell>, c: Cell)
    requires |trail| == SHADOW_DELAY
    ensures ShadowPos(trail) == None
    ensures ShadowPos(trail + [c]) == Some(trail[1])
  {}

  /** The capture test: the shadow exists and stands on the player's cell. */
  function Captured(trail: seq<Cell>, player: Cell): (caught: bool)
    ensures caught <==> |trail| > SHADOW_DELAY && trail[|trail| - SHADOW_DELAY] == player
    ensures |trail| <= SHADOW_DELAY ==> !caught
  {
    match ShadowPos(trail)
    case Some(cell) => cell == player
    case None => false
  }
}
